=== FILE: README.md ===
# mkfs.mfs in Dafny

A model of the formatting tool `mkfs.mfs` of the MFS filesystem. The tool
writes three things to the start of a block device:

1. a zero-padded superblock holding version, magic, block size and block count;
2. the free-block bitmap (the "freemap"), whose leading bits are meant to
   mark the blocks the metadata occupies; as written they do not in general
   (see Findings);
3. an all-zero inode bitmap of the same length.

The model covers:

- the size arithmetic (`DIV_ROUND_UP`, `BITS_TO_LONGS`);
- the bitmap primitives `create_zero_bitmap` and `set_bit_bitmap`;
- `write_freemap`, `write_inodemap` and `create_superblock`;
- `main` from the sector-size query on: choosing the block size, counting the
  blocks, and the write sequence that stops at the first error.

Modules, in dependency order:

- `SizeArith` (`size_arith.dfy`) holds the platform constants and the word
  arithmetic. It also holds `Config`, the values mkfs takes from headers
  outside this model: the size of `union mfs_padded_super_block`,
  `MFS_VERSION` and `MFS_MAGIC_NUMBER`.
- `Bitmap` (`bitmap.dfy`) holds the bitmaps. A machine word is its vector of
  64 bits: element k is the bit of value 2^k. Logical bit i is bit `i % 64` of
  word `i / 64`.
- `Maps` (`maps.dfy`) builds the freemap and the inode map buffers.
- `SuperBlock` (`superblock.dfy`) is the superblock as four named fields plus
  the remaining bytes.
- `Mkfs` (`mkfs.dfy`) is `main` as a pure function. Its inputs are:
  - the configuration;
  - a `Device` record carrying everything the outside world answers: the
    sector size and byte count it reports, whether each `calloc` succeeds,
    and the status of each `write_blockdevice` call;
  - the requested block size.

  Its result is a `Run`: the exit of `main`, together with the buffers passed
  to `write_blockdevice`, in order.

Undefined behaviour is modelled as its own exit, never as an arbitrary value.
`Mkfs.Exit` has two such cases:

- `DivisionByZero`: `bytes / block_size` with a zero block size;
- `SetBitUndefinedBehaviour`: a `set_bit_bitmap` call that shifts an `int` by
  31 or more, or indexes past the array.

`Maps.FreemapSafe` is the exact condition on the superblock size, block size
and block count under which every call in the freemap loop is defined.
`Maps.FreemapSafeIff` proves that it is exact.

The model follows what the code does, including what it does not do:

- The code computes no layout block indices, and writes no root inode and no
  root record. It writes its three buffers back to back at byte offsets 0,
  SB and SB + words·8.
- The code does not fail on a zero block count. It returns 0 with nothing
  written.
- The code tests `sectorsize % block_size`, not `block_size % sectorsize`.

Each as-written behaviour that looks unintended is recorded under Findings.
Each has a corrected counterpart. `Mkfs.MkfsIntended` is `main` rebuilt from
the corrected pieces.

## Model

| member | source | states |
|---|---|---|
| `SizeArith.DivRoundUp` | mkfs.mfs.c:18 | the result is the least k with k·d ≥ n: it covers n, one less does not, and it is 0 for n = 0 |
| `SizeArith.BitsToLongs` | mkfs.mfs.c:19 | `BITS_TO_LONGS` as compiled, with `n + 63` reduced modulo 2^64; the word count's bit size always fits in 64 bits |
| `SizeArith.WordsNeeded` | mkfs.mfs.c:19 | the word count the macro is meant to give: the least number of 64-bit words covering n bits |
| `SizeArith.BitsToLongsLeastCover` | mkfs.mfs.c:18-19 | below the wrap, `BITS_TO_LONGS(n)` equals the least covering word count: words·64 ≥ n and (words−1)·64 < n for n > 0 |
| `SizeArith.BitsToLongsWrapsAtTop` | mkfs.mfs.c:18-19 | for n = 2^64−1 the macro returns 0 words, while 2^58 are needed |
| `Bitmap.ZeroBitmap` | mkfs.mfs.c:109 | `calloc` of `words` words gives exactly `words` 64-bit words with every bit clear |
| `Bitmap.CreateZeroBitmap` | mkfs.mfs.c:107-114 | the result is NULL exactly when allocation fails; otherwise it has exactly `BITS_TO_LONGS(bits)` words, all zero |
| `Bitmap.SetBitAsWritten` | mkfs.mfs.c:98-105 | on its defined domain (bit < 31, word `bit / 8` inside the array), exactly bit `bit` of word `bit / 8` becomes set; every other bit keeps its value and the length is unchanged |
| `Bitmap.SetBitAsWrittenNeverClears` | mkfs.mfs.c:104 | OR-ing in the mask never clears a bit that was set |
| `Bitmap.SetBitAsWrittenTouchesOneWord` | mkfs.mfs.c:99-104 | every word other than `bit / sizeof(unsigned long)` is left unchanged |
| `Bitmap.SetBitAsWrittenIdempotent` | mkfs.mfs.c:98-105 | setting the same bit twice yields the same bitmap as setting it once |
| `Bitmap.SetBitAsWrittenMissesBitEight` | mkfs.mfs.c:99-101 | asked to set bit 8, the code leaves logical bit 8 clear and sets logical bit 72 |
| `Bitmap.SetBit` | mkfs.mfs.c:98-105 | corrected set-bit: afterwards logical bit i is set exactly when it was set before or i = bit |
| `Bitmap.SetBitIdempotent` | mkfs.mfs.c:98-105 | the corrected set-bit is idempotent on every logical bit |
| `Maps.MetadataBytesFitSizeT` | mkfs.mfs.c:119 | `used_bytes` is below 2^64 for every 64-bit block count, so its `size_t` computation never wraps |
| `Maps.MetadataBytes` | mkfs.mfs.c:119 | `used_bytes`: the padded superblock plus two bitmaps of `words·8` bytes each |
| `Maps.FreemapSafe` | mkfs.mfs.c:126-128 | the derived precondition of the freemap loop: at most 31 used blocks, and the last one's word `(used_blocks−1) / 8` inside the array |
| `Maps.UsedBlocks` | mkfs.mfs.c:119-120 | `used_blocks` is the floor of `used_bytes / block_size`: used_blocks·bs ≤ used_bytes < (used_blocks+1)·bs |
| `Maps.FreemapSafeIff` | mkfs.mfs.c:126-128 | the derived layout condition holds if and only if every `set_bit_bitmap(b)` with b < used_blocks is on the defined domain |
| `Maps.MarkUsedAsWritten` | mkfs.mfs.c:126-128 | after the loop over b < n, bit j of word k is set exactly when it was set before, or when j < n and j / 8 = k |
| `Maps.BuildFreemap` | mkfs.mfs.c:116-128 | the buffer is built if and only if `calloc` succeeds and the layout is safe; it yields -ENOMEM if and only if `calloc` fails; when built it is `BITS_TO_LONGS(bits)` words with bit j of word k set exactly for j < used_blocks and j / 8 = k |
| `Maps.FreemapAsWrittenExactWhenSmall` | mkfs.mfs.c:126-128 | when at most 8 blocks are used, the freemap's logical bits are exactly the used prefix |
| `Maps.FreemapAsWrittenMissesBlockEight` | mkfs.mfs.c:119-128 | with a 4096-byte superblock, 512-byte blocks and 2048 blocks, 9 blocks are used and the loop is defined, yet block 8 stays free and bit 72 is set |
| `Maps.FreemapAsWrittenUndefinedOnLargeDevice` | mkfs.mfs.c:119-128 | on a 1 GiB device with 512-byte blocks, the freemap loop is undefined for every superblock size |
| `Maps.ReservedBlocks` | mkfs.mfs.c:119-120 | corrected reservation: the least block count whose bytes cover the superblock and both bitmaps |
| `Maps.UsedBlocksDropsPartialBlock` | mkfs.mfs.c:120 | with a 512-byte superblock, 512-byte blocks and 100 blocks, the metadata fits the device and the loop is defined, yet the metadata spans 544 bytes over 2 blocks while only 1 block is counted used |
| `Maps.ReserveLeading` | mkfs.mfs.c:126-128 | corrected marking loop: afterwards logical bit i is set exactly when it was set before or i < n |
| `Maps.BuildFreemapIntended` | mkfs.mfs.c:116-128 | corrected freemap: built if and only if `calloc` succeeds and the reservation fits the bitmap; its logical bit i is set exactly for i < ReservedBlocks |
| `Maps.BuildInodemap` | mkfs.mfs.c:134-143 | `write_inodemap`'s bitmap: absent exactly when `calloc` fails (then -ENOMEM in the write sequence); otherwise `BITS_TO_LONGS(bits)` words with no logical bit set |
| `Maps.InodemapMatchesFreemap` | mkfs.mfs.c:129-140 | the inode map and the freemap written before it have the same number of words, so both writes have the same length |
| `Maps.CreateZeroBitmapIntended` | mkfs.mfs.c:107-114 | corrected allocation: present if and only if `calloc` succeeds; the least covering number of words, all zero |
| `SuperBlock.ZeroedSuperBlock` | mkfs.mfs.c:155 | after the `memset`, every field and every padding byte is zero |
| `SuperBlock.CreateSuperblock` | mkfs.mfs.c:89-96 | the status is always 0; version, magic, block size and block count take the given values, and all other bytes are unchanged |
| `SuperBlock.CreateSuperblockOverwritesNamedFields` | mkfs.mfs.c:89-96 | the result does not depend on the four fields' previous values |
| `SuperBlock.CreateSuperblockOnZeroed` | mkfs.mfs.c:89-96 | filled into the zeroed union, every byte outside the four fields stays zero |
| `Mkfs.ToUnsigned32` | mkfs.mfs.c:169 | storing the `int` sector size into an `unsigned int` yields a value below 2^32 that is congruent to it modulo 2^32, the C conversion rule |
| `Mkfs.ToUnsigned32Unique` | mkfs.mfs.c:169 | that value is the only one in the unsigned range congruent to the `int`: a non-negative `int` keeps its value and a negative one becomes x + 2^32 |
| `Mkfs.Sector` | mkfs.mfs.c:169 | the sector size `main` compares against is below 2^32 |
| `Mkfs.ChooseBlockSize` | mkfs.mfs.c:170-184 | a request of 0 takes the sector size; an accepted nonzero request is kept unchanged |
| `Mkfs.ChooseBlockSizeForcesSectorSize` | mkfs.mfs.c:174-183 | for a positive sector size, a nonzero request is accepted if and only if it equals the sector size; a zero sector size accepts every nonzero request |
| `Mkfs.ChooseBlockSizeIntended` | mkfs.mfs.c:179-183 | corrected test (block size a multiple of the sector size): 0 takes the sector size, and an accepted request is kept |
| `Mkfs.ChooseBlockSizeIntendedAcceptsMultiples` | mkfs.mfs.c:179-183 | the corrected test accepts every positive multiple of a positive sector size |
| `Mkfs.ChooseBlockSizeIntendedRejectsNonMultiples` | mkfs.mfs.c:179-183 | the corrected test rejects every nonzero request that is not a multiple |
| `Mkfs.ChooseBlockSizeRejectsMultiple` | mkfs.mfs.c:179 | as written, a 1024-byte block on a 512-byte-sector device is rejected; the corrected test accepts it |
| `Mkfs.ChooseBlockSizeAgreesOnSectorSize` | mkfs.mfs.c:170-183 | both tests give the same answer for the default request and for a request equal to the sector size |
| `Mkfs.WriteSequence` | mkfs.mfs.c:206-224 | the superblock is always written first; the freemap is written if and only if the superblock write returned 0 and the freemap was built; the inode map is written if and only if, in addition, the freemap write returned 0 and the inode map was allocated |
| `Mkfs.WriteSequenceFirstError` | mkfs.mfs.c:206-227 | every write before the last one issued returned 0; a failed write's status is the exit; a stop after a successful superblock write means the freemap `calloc` failed (-ENOMEM) or its loop was undefined; a stop after a successful freemap write means the inode map `calloc` failed (-ENOMEM) |
| `Mkfs.WriteSequenceFreemapWriteFails` | mkfs.mfs.c:214-216 | a failed freemap write after a successful superblock write ends the run with that write's status, after exactly the superblock and the freemap |
| `Mkfs.WriteSequenceSuccess` | mkfs.mfs.c:206-227 | exit 0 means all three buffers were written and every write returned 0 |
| `Mkfs.ByteLength` | mkfs.mfs.c:206 | the `datalen` of each write: the padded superblock size for the superblock, `BITS_TO_LONGS(bits)·8` for either bitmap (lines 129 and 140) |
| `Mkfs.Offset` | mkfs.mfs.c:206-222 | the device position at which the k-th buffer lands: the sum of the lengths of the buffers written before it |
| `Mkfs.OffsetOfThree` | mkfs.mfs.c:206-222 | buffers written back to back start at 0, at the first buffer's length, and at the sum of the first two lengths |
| `Mkfs.BlockCount` | mkfs.mfs.c:189 | `blocks` is the number of whole blocks on the device, and is 0 exactly when the device is smaller than one block |
| `Mkfs.Mkfs` | mkfs.mfs.c:169-227 | `main` writes at most three buffers |
| `Mkfs.FormatDevice` | mkfs.mfs.c:188-227 | once the block size is chosen, at most three buffers are written |
| `Mkfs.MkfsIntended` | mkfs.mfs.c:169-227 | the corrected `main` writes at most three buffers |
| `Mkfs.FormatDeviceIntended` | mkfs.mfs.c:188-227 | with the corrected pieces, at most three buffers are written |
| `Mkfs.MkfsRejectsBlockSize` | mkfs.mfs.c:174-183 | the run ends with -EINVAL and no writes if and only if the request is nonzero and the sector size is larger than it or not divisible by it |
| `Mkfs.MkfsBlockSizeIsSectorSize` | mkfs.mfs.c:170-183 | for a positive sector size, any superblock that is written records the sector size as its block size |
| `Mkfs.MkfsDividesByZero` | mkfs.mfs.c:170-189 | `main` divides by zero if and only if the request is 0 and the sector size is 0 |
| `Mkfs.FormatDeviceRunsWriteSequence` | mkfs.mfs.c:198-227 | on a device holding a block, the run is exactly the write sequence of the zeroed superblock with version, magic, block size and block count filled in, the freemap and the inode map: `create_superblock`'s check never ends it |
| `Mkfs.FormatDeviceNoSpace` | mkfs.mfs.c:188-192 | the run returns 0 with nothing written if and only if the device is smaller than one block |
| `Mkfs.FormatDeviceWriteOrder` | mkfs.mfs.c:206-222 | buffers go superblock, freemap, inode map, at offsets 0, SB and SB + words·8; each bitmap is `BITS_TO_LONGS(blocks)·8` bytes |
| `Mkfs.FormatDeviceSuccess` | mkfs.mfs.c:198-227 | a run returns 0 with something written if and only if the device holds a block, both `calloc`s succeed, the freemap layout is safe and all three writes return 0; such a run writes the filled superblock with zero padding, the freemap bit pattern of the loop and an all-zero inode map, exactly `used_bytes` long in all |
| `Mkfs.FormatDeviceUndefined` | mkfs.mfs.c:120-128 | the run hits undefined behaviour in the freemap loop if and only if blocks > 0, the superblock write and the `calloc` succeed, and the layout is not safe |
| `Mkfs.MkfsIntendedAcceptsMultipleBlockSize` | mkfs.mfs.c:174-183 | for a request that is a larger multiple of a positive sector size, on a device holding at least one such block, mkfs as written returns -EINVAL with nothing written, while the corrected mkfs writes a superblock with that block size and the device's whole-block count |
| `Mkfs.MkfsRejectsDoubleSectorBlockSize` | mkfs.mfs.c:174-183 | on a 1 MiB device with 512-byte sectors, a request for 1024-byte blocks is refused with -EINVAL and nothing written, while the corrected mkfs writes a superblock with 1024-byte blocks and 1024 blocks |
| `Mkfs.FormatDeviceIntendedReservesMetadata` | mkfs.mfs.c:119-128 | with the corrections, a run succeeds if and only if the device holds a block, both allocations succeed, the reservation fits and all writes return 0; its freemap covers every block; logical bit i is set exactly for i < ReservedBlocks; every byte written lies inside the reserved blocks |

## Left out

- Command-line parsing and usage text (mkfs.mfs.c:35-87). These are outside
  the modelled logic. `parse_commandline` has no case for `-b`, so an explicit
  block size cannot reach `main` from the command line. The model still takes
  the request as an input.
- Opening and closing the device, and verbose diagnostics
  (mkfs.mfs.c:157-167, 185-186, 193-197, 201-202, 209-213, 217-221, 225-236).
  These are I/O with no state the model needs. The warning printed at line 173
  is output only.
- `open_blockdevice` and `write_blockdevice` (libmfs.c:8-34). They wrap
  `open`, `write`, `fsync` and `errno`. The status of each write is an input
  carried by `Mkfs.Device`. A short write reports `errno`, which can be 0; its
  status is then 0 like a full write's.
- `bytecount_blockdevice` and `sectorsize_blockdevice`. They are only
  declared (libmfs.h:10-11), and their definitions are not part of this
  model. Their results are inputs carried by `Mkfs.Device`.
- Mkfs.Offset: a write reporting 0 is taken to have written its whole
  buffer. After a short write whose `errno` is 0, `write` has advanced the
  file position by fewer than `datalen` bytes, so the next buffer lands
  earlier than `Offset`, `FormatDeviceWriteOrder` and `FormatDeviceSuccess`
  state.
- fsck.mfs.c. It is not part of this model.
- The concrete byte layout of `mfs_super_block` and
  `mfs_padded_super_block`. Those headers are not part of this model. The
  superblock is four named fields plus the remaining bytes, and the union's
  size is the parameter `Config.sbSize`.
- Platforms other than LP64. `sizeof(unsigned long)` is fixed at 8 bytes.
- Byte order. A bitmap is a sequence of 64-bit words, and bit j of a word is
  the bit of value 2^j. The bytes that reach the device depend on the
  platform's byte order, which is little-endian on x86-64. No contract speaks
  of bytes on the disk.
- `free` of the bitmap buffers. Memory release has no observable effect in
  the model.
- Mkfs.Mkfs: its own contract only bounds the number of writes. Its
  behaviour is stated by `MkfsRejectsBlockSize`, `MkfsBlockSizeIsSectorSize`,
  `MkfsDividesByZero` and `MkfsIntendedAcceptsMultipleBlockSize`.
- Mkfs.FormatDevice: its own contract only bounds the number of writes. Its
  exits are stated through `FormatDeviceRunsWriteSequence`, which reduces a
  run on a device holding a block to `WriteSequence`; the exit of a failing run is
  then the one `WriteSequence` and `WriteSequenceFirstError` name. The other
  `FormatDevice*` lemmas state the no-space, order, success and
  undefined-behaviour cases.
- Mkfs.MkfsIntended: its own contract only bounds the number of writes. Its
  behaviour is stated by `MkfsIntendedAcceptsMultipleBlockSize`. It uses the
  four corrections: the multiple test, `SetBit` addressing through
  `ReserveLeading`, sizing without the wrap, and the ceiling reservation.
- Mkfs.FormatDeviceIntended: its own contract only bounds the number of
  writes. Its behaviour is stated by `FormatDeviceIntendedReservesMetadata`.

## Findings

| source | as written | input that shows it | evidently intended | confidence | as-written member | corrected member |
|---|---|---|---|---|---|---|
| mkfs.mfs.c:99-101 | word index `bit / sizeof(unsigned long)` (a byte count) and mask `1 << bit` (an `int` shift by the unreduced bit) | bit 8 of a zeroed two-word bitmap: logical bit 72 is set, bit 8 is not. With a 4096-byte superblock, 512-byte blocks and 2048 blocks, block 8 stays marked free. From 32 used blocks on, the shift is undefined | word `bit / 64`, mask `1UL << (bit % 64)` | high; not executed | `Bitmap.SetBitAsWrittenMissesBitEight` | `Bitmap.SetBit` |
| mkfs.mfs.c:120 | `used_blocks = used_bytes / block_size` rounds down | 512-byte superblock, 512-byte blocks, 100 blocks: 544 metadata bytes over 2 blocks, 1 block marked used, so block 1 holds metadata yet is marked free | round up, so every block holding metadata is marked used | high; not executed | `Maps.UsedBlocksDropsPartialBlock` | `Maps.ReservedBlocks` |
| mkfs.mfs.c:179 | rejects when `sectorsize % block_size != 0` | sector size 512, requested block size 1024: rejected with -EINVAL | reject when `block_size % sectorsize != 0`, as the message "is not a multiple of sectorsize" says | high; not executed | `Mkfs.ChooseBlockSizeRejectsMultiple` | `Mkfs.ChooseBlockSizeIntended` |
| mkfs.mfs.c:18-19 | `(n + 63) / 64` computed in `uint64_t` wraps for n close to 2^64 | n = 2^64 − 1 gives 0 words instead of 2^58 | the least covering word count, without the wrap | low (needs about 2^64 blocks); not executed | `SizeArith.BitsToLongsWrapsAtTop` | `SizeArith.WordsNeeded` |

=== FILE: bitmap.dfy ===
/**
 The bitmaps of mkfs.mfs: arrays of `unsigned long` allocated zeroed by
 `create_zero_bitmap` and updated by `set_bit_bitmap`.

 A machine word is modelled by its vector of 64 bits, element k standing
 for the bit of value 2^k, so `x | (1 << k)` is "set element k". The
 bitmap's logical bit i, the one that stands for block i, is bit `i % 64`
 of word `i / 64`.
 */
module Bitmap {
  import opened SizeArith
  import opened Wrappers

  /** Width of the C `int` that `1 << bit` is computed in. */
  const IntBits: nat := 32

  type Word = seq<bool>
  type Bitmap = seq<Word>

  /** Every word is 64 bits wide. */
  predicate WellFormed(bm: Bitmap) {
    forall k | 0 <= k < |bm| :: |bm[k]| == WordBits
  }

  /** No bit of any word is set. */
  predicate AllClear(bm: Bitmap) {
    forall k, j | 0 <= k < |bm| && 0 <= j < |bm[k]| :: !bm[k][j]
  }

  /** A zero-filled array of `words` words, as `calloc` returns it. */
  function ZeroBitmap(words: nat): (bm: Bitmap)
    ensures |bm| == words && WellFormed(bm) && AllClear(bm)
  {
    seq(words, _ => seq(WordBits, _ => false))
  }

  /**
   `create_zero_bitmap`: `calloc` of `BITS_TO_LONGS(bits)` words; whether
   the allocation succeeds is an input of the model.
   */
  function CreateZeroBitmap(bits: nat, allocates: bool): (r: Option<Bitmap>)
    requires bits < U64
    ensures r.Some? <==> allocates
    ensures r.Some? ==> |r.value| == BitsToLongs(bits)
    ensures r.Some? ==> WellFormed(r.value) && AllClear(r.value)
  {
    if allocates then Some(ZeroBitmap(BitsToLongs(bits))) else None
  }

  /**
   The calls on which `set_bit_bitmap` is defined behaviour: the `int`
   shift `1 << bit` needs `bit < 31`, and the word `bitmap[bit / 8]` must
   lie inside the array.
   */
  predicate SetBitDefined(words: nat, bit: nat) {
    bit < IntBits - 1 && bit / WordBytes < words
  }

  /**
   `set_bit_bitmap` as written: the word index is `bit / sizeof(unsigned long)`,
   a division by the word's size in BYTES, and the mask is `1 << bit` with the
   unreduced bit number.
   */
  function SetBitAsWritten(bm: Bitmap, bit: nat): (r: Bitmap)
    requires WellFormed(bm) && SetBitDefined(|bm|, bit)
    ensures |r| == |bm| && WellFormed(r)
    ensures forall k, j | 0 <= k < |r| && 0 <= j < |r[k]| ::
      r[k][j] == (bm[k][j] || (k == bit / WordBytes && j == bit))
  {
    var k := bit / WordBytes;
    bm[k := bm[k][bit := true]]
  }

  /** `set_bit_bitmap` only ever sets bits: every bit set before is set after. */
  lemma SetBitAsWrittenNeverClears(bm: Bitmap, bit: nat)
    requires WellFormed(bm) && SetBitDefined(|bm|, bit)
    ensures forall k, j | 0 <= k < |bm| && 0 <= j < |bm[k]| && bm[k][j] ::
      SetBitAsWritten(bm, bit)[k][j]
  {
  }

  /** Words other than `bit / 8` are untouched. */
  lemma SetBitAsWrittenTouchesOneWord(bm: Bitmap, bit: nat)
    requires WellFormed(bm) && SetBitDefined(|bm|, bit)
    ensures forall k | 0 <= k < |bm| && k != bit / WordBytes ::
      SetBitAsWritten(bm, bit)[k] == bm[k]
  {
    var r := SetBitAsWritten(bm, bit);
    forall k | 0 <= k < |bm| && k != bit / WordBytes
      ensures r[k] == bm[k]
    {
      assert |r[k]| == |bm[k]|;
    }
  }

  /** Setting the same bit twice is the same as setting it once. */
  lemma SetBitAsWrittenIdempotent(bm: Bitmap, bit: nat)
    requires WellFormed(bm) && SetBitDefined(|bm|, bit)
    ensures var once := SetBitAsWritten(bm, bit);
      SetBitAsWritten(once, bit) == once
  {
    var once := SetBitAsWritten(bm, bit);
    var twice := SetBitAsWritten(once, bit);
    assert |twice| == |once|;
    forall k | 0 <= k < |once|
      ensures twice[k] == once[k]
    {
      assert |twice[k]| == |once[k]|;
    }
  }

  /** The logical bit i of a bitmap: bit `i % 64` of word `i / 64`. */
  function BitAt(bm: Bitmap, i: nat): bool
    requires WellFormed(bm) && i < |bm| * WordBits
  {
    bm[i / WordBits][i % WordBits]
  }

  /**
   Counterexample for `set_bit_bitmap`: asked to set bit 8, it sets bit 8
   of word 1, which is logical bit 72, and leaves logical bit 8 clear.
   */
  lemma SetBitAsWrittenMissesBitEight()
    ensures var r := SetBitAsWritten(ZeroBitmap(2), 8);
      !BitAt(r, 8) && BitAt(r, 72)
  {
    var r := SetBitAsWritten(ZeroBitmap(2), 8);
    assert r[0][8] == false && r[1][8] == true;
  }

  /**
   The set-bit operation the code evidently intends: word `bit / 64`,
   mask `1UL << (bit % 64)`. It sets exactly logical bit `bit`.
   */
  function SetBit(bm: Bitmap, bit: nat): (r: Bitmap)
    requires WellFormed(bm) && bit < |bm| * WordBits
    ensures |r| == |bm| && WellFormed(r)
    ensures forall i | 0 <= i < |r| * WordBits :: BitAt(r, i) == (BitAt(bm, i) || i == bit)
  {
    var k := bit / WordBits;
    var r := bm[k := bm[k][bit % WordBits := true]];
    assert forall i | 0 <= i < |r| * WordBits :: BitAt(r, i) == (BitAt(bm, i) || i == bit) by {
      forall i | 0 <= i < |r| * WordBits
        ensures BitAt(r, i) == (BitAt(bm, i) || i == bit)
      {
        assert (i / WordBits == k && i % WordBits == bit % WordBits) <==> i == bit;
      }
    }
    r
  }

  /** The intended set-bit is idempotent too. */
  lemma SetBitIdempotent(bm: Bitmap, bit: nat)
    requires WellFormed(bm) && bit < |bm| * WordBits
    ensures var once := SetBit(bm, bit);
      forall i | 0 <= i < |bm| * WordBits :: BitAt(SetBit(once, bit), i) == BitAt(once, i)
  {
  }
}

=== FILE: maps.dfy ===
/**
 The two bitmaps mkfs.mfs writes after the superblock: the freemap, whose
 leading bits `write_freemap` marks used, and the all-zero inode map of
 `write_inodemap`. Both are `BITS_TO_LONGS(bits)` words long.
 */
module Maps {
  import opened SizeArith
  import opened Wrappers
  import opened Bitmap

  /** The outcome of building a bitmap buffer before it is written. */
  datatype MapBuild =
    | Built(words: Bitmap)
    | OutOfMemory        // `calloc` returned NULL: the caller gets -ENOMEM
    | SetBitUndefined    // a `set_bit_bitmap` call outside its defined domain

  /**
   `used_bytes` of `write_freemap`: the padded superblock and two bitmaps of
   `words` words each, the freemap and the inode map that follows it.
   */
  function MetadataBytes(cfg: Config, words: nat): nat {
    cfg.sbSize + words * WordBytes * 2
  }

  /** `used_bytes` fits in a 64-bit `size_t`, so its computation does not wrap. */
  lemma MetadataBytesFitSizeT(cfg: Config, bits: nat)
    requires cfg.Valid() && bits < U64
    ensures MetadataBytes(cfg, BitsToLongs(bits)) < U64
  {
    var words := BitsToLongs(bits);
    assert words * WordBytes * 2 * 4 == words * WordBits;
  }

  /**
   `used_blocks` of `write_freemap` as written: the FLOOR of
   `used_bytes / block_size`, so a block only partly covered by the metadata
   is not counted.
   */
  function UsedBlocks(cfg: Config, bits: nat, blockSize: nat): (n: nat)
    requires cfg.Valid() && bits < U64 && 0 < blockSize
    ensures n * blockSize <= MetadataBytes(cfg, BitsToLongs(bits))
    ensures MetadataBytes(cfg, BitsToLongs(bits)) < (n + 1) * blockSize
  {
    FloorDiv(MetadataBytes(cfg, BitsToLongs(bits)), blockSize)
  }

  /**
   The condition on (SB, W, block size, bits) under which the freemap loop
   of `write_freemap` stays defined: at most 31 leading blocks, and the last
   of them addresses a word inside the array.
   */
  predicate FreemapSafe(cfg: Config, bits: nat, blockSize: nat)
    requires cfg.Valid() && bits < U64 && 0 < blockSize
  {
    var n := UsedBlocks(cfg, bits, blockSize);
    n <= IntBits - 1 && (n == 0 || (n - 1) / WordBytes < BitsToLongs(bits))
  }

  /** `FreemapSafe` holds exactly when every call of the loop is defined. */
  lemma FreemapSafeIff(cfg: Config, bits: nat, blockSize: nat)
    requires cfg.Valid() && bits < U64 && 0 < blockSize
    ensures FreemapSafe(cfg, bits, blockSize) <==>
      forall b | 0 <= b < UsedBlocks(cfg, bits, blockSize) ::
        SetBitDefined(BitsToLongs(bits), b)
  {
    var n := UsedBlocks(cfg, bits, blockSize);
    var words := BitsToLongs(bits);
    if FreemapSafe(cfg, bits, blockSize) {
      forall b | 0 <= b < n
        ensures SetBitDefined(words, b)
      {
        assert b / WordBytes <= (n - 1) / WordBytes;
      }
    }
    if n > 0 && (forall b | 0 <= b < n :: SetBitDefined(words, b)) {
      assert SetBitDefined(words, n - 1);
    }
  }

  /**
   The loop `for (b = 0; b < n; b++) set_bit_bitmap(bitmap, b)`. Bit j of
   word k ends up set exactly when it was set before, or j < n and
   `j / W == k`: each call sets bit b of word `b / W`.
   */
  function MarkUsedAsWritten(bm: Bitmap, n: nat): (r: Bitmap)
    requires WellFormed(bm)
    requires forall b | 0 <= b < n :: SetBitDefined(|bm|, b)
    ensures |r| == |bm| && WellFormed(r)
    ensures forall k, j | 0 <= k < |r| && 0 <= j < |r[k]| ::
      r[k][j] == (bm[k][j] || (j < n && j / WordBytes == k))
    decreases n
  {
    if n == 0 then bm
    else SetBitAsWritten(MarkUsedAsWritten(bm, n - 1), n - 1)
  }

  /**
   The freemap buffer of `write_freemap` as written: allocate zeroed, then
   mark the `used_blocks` leading blocks with `set_bit_bitmap`.
   */
  function BuildFreemap(cfg: Config, bits: nat, blockSize: nat, allocates: bool): (r: MapBuild)
    requires cfg.Valid() && bits < U64 && 0 < blockSize
    ensures r.OutOfMemory? <==> !allocates
    ensures r.Built? <==> allocates && FreemapSafe(cfg, bits, blockSize)
    ensures r.Built? ==> |r.words| == BitsToLongs(bits) && WellFormed(r.words)
    ensures r.Built? ==> forall k, j | 0 <= k < |r.words| && 0 <= j < |r.words[k]| ::
      r.words[k][j] == (j < UsedBlocks(cfg, bits, blockSize) && j / WordBytes == k)
  {
    match CreateZeroBitmap(bits, allocates)
    case None => OutOfMemory
    case Some(bm) =>
      if FreemapSafe(cfg, bits, blockSize) then
        FreemapSafeIff(cfg, bits, blockSize);
        Built(MarkUsedAsWritten(bm, UsedBlocks(cfg, bits, blockSize)))
      else SetBitUndefined
  }

  /**
   When at most W leading blocks are used every one of them lands in word 0
   at its own position, so the freemap's logical bits are exactly the
   reserved prefix: the as-written code is right on small layouts.
   */
  lemma FreemapAsWrittenExactWhenSmall(cfg: Config, bits: nat, blockSize: nat, allocates: bool)
    requires cfg.Valid() && bits < U64 && 0 < blockSize
    requires BuildFreemap(cfg, bits, blockSize, allocates).Built?
    requires UsedBlocks(cfg, bits, blockSize) <= WordBytes
    ensures var fm := BuildFreemap(cfg, bits, blockSize, allocates).words;
      forall i | 0 <= i < |fm| * WordBits ::
        BitAt(fm, i) == (i < UsedBlocks(cfg, bits, blockSize))
  {
    var fm := BuildFreemap(cfg, bits, blockSize, allocates).words;
    var n := UsedBlocks(cfg, bits, blockSize);
    forall i | 0 <= i < |fm| * WordBits
      ensures BitAt(fm, i) == (i < n)
    {
      SmallPrefixBit(fm, n, i);
    }
  }

  /** One bit of `FreemapAsWrittenExactWhenSmall`. */
  lemma SmallPrefixBit(fm: Bitmap, n: nat, i: nat)
    requires WellFormed(fm) && n <= WordBytes
    requires forall k, j | 0 <= k < |fm| && 0 <= j < |fm[k]| ::
      fm[k][j] == (j < n && j / WordBytes == k)
    requires i < |fm| * WordBits
    ensures BitAt(fm, i) == (i < n)
  {
    var d := WordBits;
    var k, j := i / d, i % d;
    assert j < |fm[k]|;
    assert fm[k][j] == (j < n && j / WordBytes == k);
  }

  /**
   Counterexample on LP64 with a 4 KiB padded superblock, 512-byte blocks
   and 2048 blocks (a 1 MiB device): nine leading blocks are used, and the
   ninth call sets logical bit 72 instead of bit 8, so block 8 stays free.
   */
  lemma FreemapAsWrittenMissesBlockEight()
    ensures var cfg := Config(4096, 0, 0, 0);
      && UsedBlocks(cfg, 2048, 512) == 9
      && FreemapSafe(cfg, 2048, 512)
      && var fm := BuildFreemap(cfg, 2048, 512, true).words;
      && 72 < |fm| * WordBits
      && !BitAt(fm, 8) && BitAt(fm, 72)
  {
    var cfg := Config(4096, 0, 0, 0);
    assert BitsToLongs(2048) == 32 by {
      assert WrapU64(2048 + 64 - 1) == 2111;
    }
    assert MetadataBytes(cfg, BitsToLongs(2048)) == 4608;
    var n := UsedBlocks(cfg, 2048, 512);
    assert n * 512 <= 4608 < (n + 1) * 512;
    assert n == 9;
    var fm := BuildFreemap(cfg, 2048, 512, true).words;
    assert |fm| == 32 && |fm[0]| == 64 && |fm[1]| == 64;
    assert fm[0][8] == (8 < n && 8 / WordBytes == 0);
    assert fm[1][8] == (8 < n && 8 / WordBytes == 1);
    assert BitAt(fm, 8) == fm[0][8];
    assert BitAt(fm, 72) == fm[1][8];
  }

  /**
   On a 1 GiB device with 512-byte blocks the bitmaps alone need 1024
   blocks, and the loop shifts an `int` by 31 and more: undefined.
   */
  lemma FreemapAsWrittenUndefinedOnLargeDevice(cfg: Config)
    requires cfg.Valid()
    ensures !FreemapSafe(cfg, 2097152, 512)
  {
    assert BitsToLongs(2097152) == 32768 by {
      assert WrapU64(2097152 + 64 - 1) == 2097215;
    }
  }

  /**
   The number of leading blocks the reservation evidently intends: the
   CEILING of the metadata size over the block size, with the bitmap length
   computed without the 64-bit wrap.
   */
  function ReservedBlocks(cfg: Config, bits: nat, blockSize: nat): (n: nat)
    requires cfg.Valid() && 0 < blockSize
    ensures n * blockSize >= MetadataBytes(cfg, WordsNeeded(bits))
    ensures n > 0 ==> (n - 1) * blockSize < MetadataBytes(cfg, WordsNeeded(bits))
  {
    DivRoundUp(MetadataBytes(cfg, WordsNeeded(bits)), blockSize)
  }

  /**
   Counterexample for the floor: LP64, a 512-byte padded superblock,
   512-byte blocks and 100 blocks, so the metadata fits on the device and the
   freemap loop is defined. The two bitmaps take two words each way, so the
   metadata spans 544 bytes over two blocks, but only one is counted used:
   block 1 holds metadata yet stays marked free.
   */
  lemma UsedBlocksDropsPartialBlock()
    ensures var cfg := Config(512, 0, 0, 0);
      && BitsToLongs(100) == 2
      && MetadataBytes(cfg, BitsToLongs(100)) == 544
      && MetadataBytes(cfg, BitsToLongs(100)) <= 100 * 512
      && UsedBlocks(cfg, 100, 512) == 1
      && FreemapSafe(cfg, 100, 512)
      && ReservedBlocks(cfg, 100, 512) == 2
  {
    var cfg := Config(512, 0, 0, 0);
    assert BitsToLongs(100) == 2 by {
      assert WrapU64(100 + 64 - 1) == 163;
    }
    assert WordsNeeded(100) == 2;
    var n := UsedBlocks(cfg, 100, 512);
    assert n * 512 <= 544 < (n + 1) * 512;
  }

  /**
   The intended marking loop: set logical bits 0 .. n-1 with the intended
   set-bit. Afterwards logical bit i is set exactly when it was before or
   i < n.
   */
  function ReserveLeading(bm: Bitmap, n: nat): (r: Bitmap)
    requires WellFormed(bm) && n <= |bm| * WordBits
    ensures |r| == |bm| && WellFormed(r)
    ensures forall i | 0 <= i < |r| * WordBits ::
      BitAt(r, i) == (BitAt(bm, i) || i < n)
    decreases n
  {
    if n == 0 then bm
    else SetBit(ReserveLeading(bm, n - 1), n - 1)
  }

  /**
   The freemap the code evidently intends: zeroed, sized without wrap, with
   the ceiling number of leading blocks marked through the intended set-bit.
   A reservation longer than the bitmap would still write past its end.
   */
  function BuildFreemapIntended(cfg: Config, bits: nat, blockSize: nat, allocates: bool): (r: MapBuild)
    requires cfg.Valid() && 0 < blockSize
    ensures r.OutOfMemory? <==> !allocates
    ensures r.Built? <==>
      (allocates && ReservedBlocks(cfg, bits, blockSize) <= WordsNeeded(bits) * WordBits)
    ensures r.Built? ==> |r.words| == WordsNeeded(bits) && WellFormed(r.words)
    ensures r.Built? ==> forall i | 0 <= i < |r.words| * WordBits ::
      BitAt(r.words, i) == (i < ReservedBlocks(cfg, bits, blockSize))
  {
    if !allocates then OutOfMemory
    else
      var words := WordsNeeded(bits);
      var n := ReservedBlocks(cfg, bits, blockSize);
      if n <= words * WordBits then
        var zero := ZeroBitmap(words);
        ZeroBitAt(zero);
        Built(ReserveLeading(zero, n))
      else SetBitUndefined
  }

  /** A cleared bitmap has no logical bit set. */
  lemma ZeroBitAt(bm: Bitmap)
    requires WellFormed(bm) && AllClear(bm)
    ensures forall i | 0 <= i < |bm| * WordBits :: !BitAt(bm, i)
  {
    forall i | 0 <= i < |bm| * WordBits
      ensures !BitAt(bm, i)
    {
      var d := WordBits;
      var k, j := i / d, i % d;
      assert j < |bm[k]|;
      assert !bm[k][j];
    }
  }

  /**
   `write_inodemap` (lines 134-143): the inode map is a fresh zero bitmap with
   one bit per block, as long as the freemap; NULL from `calloc` becomes
   -ENOMEM in the write sequence.
   */
  function BuildInodemap(bits: nat, allocates: bool): (r: Option<Bitmap>)
    requires bits < U64
    ensures r.None? <==> !allocates
    ensures r.Some? ==> |r.value| == BitsToLongs(bits) && WellFormed(r.value)
    ensures r.Some? ==> forall i | 0 <= i < |r.value| * WordBits :: !BitAt(r.value, i)
  {
    var im := CreateZeroBitmap(bits, allocates);
    if im.Some? then ZeroBitAt(im.value); im else im
  }

  /** A built freemap and an allocated inode map have the same length. */
  lemma InodemapMatchesFreemap(cfg: Config, bits: nat, blockSize: nat, freemapAllocates: bool, inodemapAllocates: bool)
    requires cfg.Valid() && bits < U64 && 0 < blockSize
    requires BuildFreemap(cfg, bits, blockSize, freemapAllocates).Built?
    requires BuildInodemap(bits, inodemapAllocates).Some?
    ensures |BuildInodemap(bits, inodemapAllocates).value| == |BuildFreemap(cfg, bits, blockSize, freemapAllocates).words|
  {
  }

  /** The zeroed allocation the code evidently intends: sized without the 64-bit wrap. */
  function CreateZeroBitmapIntended(bits: nat, allocates: bool): (r: Option<Bitmap>)
    ensures r.Some? <==> allocates
    ensures r.Some? ==> |r.value| == WordsNeeded(bits) && |r.value| * WordBits >= bits
    ensures r.Some? ==> WellFormed(r.value) && AllClear(r.value)
  {
    if allocates then Some(ZeroBitmap(WordsNeeded(bits))) else None
  }
}

=== FILE: mkfs.dfy ===
/**
 `main` of mkfs.mfs from the sector-size query on (the device is already
 open): choose the block size, count the blocks, then write the superblock,
 the freemap and the inode map back to back, stopping at the first error.

 The device is an input: the sector size and byte count it reports, whether
 each `calloc` succeeds, and what each `write_blockdevice` call returns.
 A run is the exit of `main` together with the buffers handed to
 `write_blockdevice`, in order, including one whose write failed.
 */
module Mkfs {
  import opened SizeArith
  import opened Wrappers
  import opened Bitmap
  import opened Maps
  import opened SuperBlock

  /** Linux errno values. */
  const EINVAL: int := 22
  const ENOMEM: int := 12

  /** What the device and the C library answer during one run. */
  datatype Device = Device(
    sectorSizeResult: int,     // the `int` returned by `sectorsize_blockdevice`
    byteCount: nat,            // the `uint64_t` returned by `bytecount_blockdevice`
    freemapAllocates: bool,    // whether `calloc` in `write_freemap` succeeds
    inodemapAllocates: bool,   // whether `calloc` in `write_inodemap` succeeds
    superblockWrite: int,      // result of writing the superblock
    freemapWrite: int,         // result of writing the freemap
    inodemapWrite: int)        // result of writing the inode map
  {
    predicate Valid() {
      -(U32 / 2) <= sectorSizeResult < U32 / 2 && byteCount < U64
    }
  }

  datatype Buffer =
    | SuperBlockBuffer(sb: SuperBlock)
    | FreemapBuffer(words: Bitmap)
    | InodemapBuffer(words: Bitmap)

  datatype Exit =
    | Returned(code: int)
    | DivisionByZero           // `bytes / conf.block_size` with a zero block size
    | SetBitUndefinedBehaviour // the freemap loop called `set_bit_bitmap` outside its domain

  datatype Run = Run(exit: Exit, writes: seq<Buffer>)

  /** The number of bytes `write_blockdevice` is asked to write for a buffer. */
  function ByteLength(cfg: Config, b: Buffer): nat {
    match b
    case SuperBlockBuffer(_) => cfg.sbSize
    case FreemapBuffer(m) => |m| * WordBytes
    case InodemapBuffer(m) => |m| * WordBytes
  }

  /** The device offset at which the k-th buffer lands: writes are sequential from offset 0. */
  function Offset(cfg: Config, writes: seq<Buffer>, k: nat): nat
    requires k <= |writes|
  {
    if k == 0 then 0 else Offset(cfg, writes, k - 1) + ByteLength(cfg, writes[k - 1])
  }

  /**
   `unsigned int sectorsize = sectorsize_blockdevice(fh)`: C converts an `int`
   to `unsigned int` by taking the value congruent to it modulo 2^32 that lies
   in the unsigned range.
   */
  function ToUnsigned32(x: int): (r: nat)
    requires -(U32 / 2) <= x < U32 / 2
    ensures r < U32
    ensures (r - x) % U32 == 0
  {
    if x < 0 then x + U32 else x
  }

  /**
   That value is unique: any number in the unsigned range congruent to x is
   the converted value, so a non-negative `int` keeps its value and a negative
   one becomes x + 2^32.
   */
  lemma ToUnsigned32Unique(x: int, r: int)
    requires -(U32 / 2) <= x < U32 / 2
    requires 0 <= r < U32 && (r - x) % U32 == 0
    ensures r == ToUnsigned32(x)
    ensures 0 <= x ==> r == x
    ensures x < 0 ==> r == x + U32
  {
    var d := r - x;
    if x < 0 {
      assert 0 < d < U32 + U32 && d % U32 == 0;
    } else {
      assert -(U32 as int) < d < U32 && d % U32 == 0;
    }
  }

  datatype BlockSizeChoice = Chosen(blockSize: nat) | Rejected

  /**
   The block-size decision of `main`: 0 means the sector size; a nonzero
   request is rejected when the sector size exceeds it or when
   `sectorsize % block_size != 0`.
   */
  function ChooseBlockSize(sector: nat, requested: nat): (r: BlockSizeChoice)
    ensures requested == 0 ==> r == Chosen(sector)
    ensures requested != 0 ==> r.Chosen? ==> r.blockSize == requested
  {
    if requested == 0 then Chosen(sector)
    else if sector > requested then Rejected
    else if sector % requested != 0 then Rejected
    else Chosen(requested)
  }

  /**
   The two tests together leave exactly one acceptable explicit block size
   when the sector size is positive: the sector size itself. A zero sector
   size lets every explicit size through.
   */
  lemma ChooseBlockSizeForcesSectorSize(sector: nat, requested: nat)
    requires 0 < requested
    ensures 0 < sector ==> (ChooseBlockSize(sector, requested).Chosen? <==> requested == sector)
    ensures sector == 0 ==> ChooseBlockSize(sector, requested) == Chosen(requested)
  {
  }

  /**
   The decision the code evidently intends (its message reads "is not a
   multiple of sectorsize"): the block size must be a multiple of the sector
   size, `block_size % sectorsize == 0`.
   */
  function ChooseBlockSizeIntended(sector: nat, requested: nat): (r: BlockSizeChoice)
    ensures requested == 0 ==> r == Chosen(sector)
    ensures requested != 0 ==> r.Chosen? ==> r.blockSize == requested
  {
    if requested == 0 then Chosen(sector)
    else if sector > requested then Rejected
    else if 0 < sector && requested % sector != 0 then Rejected
    else Chosen(requested)
  }

  /** The intended decision accepts every positive multiple of a positive sector size. */
  lemma ChooseBlockSizeIntendedAcceptsMultiples(sector: nat, k: nat)
    requires 0 < sector && 0 < k
    ensures ChooseBlockSizeIntended(sector, k * sector) == Chosen(k * sector)
  {
    MulMonotone(1, k, sector);
    DivModUnique(k * sector, sector, k, 0);
  }

  /** ... and rejects every nonzero request that is not a multiple. */
  lemma ChooseBlockSizeIntendedRejectsNonMultiples(sector: nat, requested: nat)
    requires 0 < sector && 0 < requested && requested % sector != 0
    ensures ChooseBlockSizeIntended(sector, requested) == Rejected
  {
  }

  /** Counterexample: a 1024-byte block on a 512-byte-sector device is refused as written. */
  lemma ChooseBlockSizeRejectsMultiple()
    ensures ChooseBlockSize(512, 1024) == Rejected
    ensures ChooseBlockSizeIntended(512, 1024) == Chosen(1024)
  {
  }

  /** The as-written and intended decisions agree on the default and on the sector size itself. */
  lemma ChooseBlockSizeAgreesOnSectorSize(sector: nat, requested: nat)
    requires requested == 0 || requested == sector
    ensures ChooseBlockSize(sector, requested) == ChooseBlockSizeIntended(sector, requested)
  {
  }

  /**
   Lines 206-224: write the superblock, then build and write the freemap,
   then build and write the inode map; the first nonzero status ends the run
   and is its exit code.
   */
  function WriteSequence(sb: SuperBlock, freemap: MapBuild, inodemap: Option<Bitmap>, dev: Device): (r: Run)
    ensures 1 <= |r.writes| <= 3 && r.writes[0] == SuperBlockBuffer(sb)
    ensures |r.writes| >= 2 <==> dev.superblockWrite == 0 && freemap.Built?
    ensures |r.writes| == 3 <==>
      dev.superblockWrite == 0 && freemap.Built? && dev.freemapWrite == 0 && inodemap.Some?
    ensures |r.writes| >= 2 ==> r.writes[1] == FreemapBuffer(freemap.words)
    ensures |r.writes| == 3 ==> r.writes[2] == InodemapBuffer(inodemap.value)
  {
    var s := SuperBlockBuffer(sb);
    if dev.superblockWrite != 0 then Run(Returned(dev.superblockWrite), [s])
    else match freemap
      case OutOfMemory => Run(Returned(-ENOMEM), [s])
      case SetBitUndefined => Run(SetBitUndefinedBehaviour, [s])
      case Built(fm) =>
        var f := FreemapBuffer(fm);
        if dev.freemapWrite != 0 then Run(Returned(dev.freemapWrite), [s, f])
        else match inodemap
          case None => Run(Returned(-ENOMEM), [s, f])
          case Some(im) => Run(Returned(dev.inodemapWrite), [s, f, InodemapBuffer(im)])
  }

  /**
   A failed freemap write after a successful superblock write ends the run
   with that write's status, after exactly those two buffers.
   */
  lemma WriteSequenceFreemapWriteFails(sb: SuperBlock, fm: Bitmap, inodemap: Option<Bitmap>, dev: Device)
    requires dev.superblockWrite == 0 && dev.freemapWrite != 0
    ensures WriteSequence(sb, Built(fm), inodemap, dev) ==
      Run(Returned(dev.freemapWrite), [SuperBlockBuffer(sb), FreemapBuffer(fm)])
  {
  }

  /** The results the three writes report, in write order. */
  function WriteResults(dev: Device): seq<int> {
    [dev.superblockWrite, dev.freemapWrite, dev.inodemapWrite]
  }

  /**
   First error wins: every write but the last one issued succeeded; a run
   that ends on a failed write returns that write's result; a run that stops
   after a successful write stopped because the next buffer was not built:
   after the superblock, the freemap `calloc` failed (-ENOMEM) or its loop hit
   undefined behaviour; after the freemap, the inode map `calloc` failed.
   */
  lemma WriteSequenceFirstError(sb: SuperBlock, freemap: MapBuild, inodemap: Option<Bitmap>, dev: Device)
    ensures var r := WriteSequence(sb, freemap, inodemap, dev);
      var last := |r.writes| - 1;
      && (forall k | 0 <= k < last :: WriteResults(dev)[k] == 0)
      && (WriteResults(dev)[last] != 0 || last == 2 ==> r.exit == Returned(WriteResults(dev)[last]))
      && (last == 0 && dev.superblockWrite == 0 ==>
            (freemap.OutOfMemory? && r.exit == Returned(-ENOMEM))
            || (freemap.SetBitUndefined? && r.exit == SetBitUndefinedBehaviour))
      && (last == 1 && dev.freemapWrite == 0 ==> inodemap.None? && r.exit == Returned(-ENOMEM))
  {
  }

  /**
   A write sequence returns 0 only after all three writes, each reporting 0,
   with both bitmaps built.
   */
  lemma WriteSequenceSuccess(sb: SuperBlock, freemap: MapBuild, inodemap: Option<Bitmap>, dev: Device)
    requires WriteSequence(sb, freemap, inodemap, dev).exit == Returned(0)
    ensures var r := WriteSequence(sb, freemap, inodemap, dev);
      && |r.writes| == 3
      && dev.superblockWrite == 0 && dev.freemapWrite == 0 && dev.inodemapWrite == 0
      && freemap.Built? && inodemap.Some?
  {
  }

  /** Three buffers placed back to back end at the sum of their lengths. */
  lemma OffsetOfThree(cfg: Config, writes: seq<Buffer>)
    requires |writes| == 3
    ensures Offset(cfg, writes, 1) == ByteLength(cfg, writes[0])
    ensures Offset(cfg, writes, 2) == ByteLength(cfg, writes[0]) + ByteLength(cfg, writes[1])
    ensures Offset(cfg, writes, 3) ==
      ByteLength(cfg, writes[0]) + ByteLength(cfg, writes[1]) + ByteLength(cfg, writes[2])
  {
  }

  /** `blocks = bytes / conf.block_size`: the whole blocks the device holds. */
  function BlockCount(bytes: nat, blockSize: nat): (blocks: nat)
    requires 0 < blockSize
    ensures blocks <= bytes
    ensures blocks * blockSize <= bytes < (blocks + 1) * blockSize
    ensures blocks == 0 <==> bytes < blockSize
  {
    FloorDiv(bytes, blockSize)
  }

  /** The sector size `main` compares against. */
  function Sector(dev: Device): (s: nat)
    requires dev.Valid()
    ensures s < U32
  {
    ToUnsigned32(dev.sectorSizeResult)
  }

  /** mkfs `main` from line 169 to the end, as written. */
  function Mkfs(cfg: Config, dev: Device, requested: nat): (r: Run)
    requires cfg.Valid() && dev.Valid() && requested < U32
    ensures |r.writes| <= 3
  {
    match ChooseBlockSize(Sector(dev), requested)
    case Rejected => Run(Returned(-EINVAL), [])
    case Chosen(bs) => FormatDevice(cfg, dev, bs)
  }

  /**
   Lines 188-227 with the block size settled: count the blocks, fill the
   zeroed superblock, and run the write sequence.
   */
  function FormatDevice(cfg: Config, dev: Device, bs: nat): (r: Run)
    requires cfg.Valid() && dev.Valid()
    ensures |r.writes| <= 3
  {
    if bs == 0 then Run(DivisionByZero, [])
    else
      var blocks := BlockCount(dev.byteCount, bs);
      if blocks == 0 then Run(Returned(0), [])
      else
        var (status, sb) := CreateSuperblock(cfg, ZeroedSuperBlock(cfg), bs, blocks);
        if status != 0 then Run(Returned(status), [])
        else WriteSequence(sb,
                           BuildFreemap(cfg, blocks, bs, dev.freemapAllocates),
                           BuildInodemap(blocks, dev.inodemapAllocates),
                           dev)
  }

  /**
   mkfs `main` with the four corrections: the block-size test asks for a
   multiple of the sector size, `SetBit` addresses logical bit `bit`, the
   bitmaps are sized without the 64-bit wrap, and the freemap reserves the
   ceiling of the metadata blocks.
   */
  function MkfsIntended(cfg: Config, dev: Device, requested: nat): (r: Run)
    requires cfg.Valid() && dev.Valid() && requested < U32
    ensures |r.writes| <= 3
  {
    match ChooseBlockSizeIntended(Sector(dev), requested)
    case Rejected => Run(Returned(-EINVAL), [])
    case Chosen(bs) => FormatDeviceIntended(cfg, dev, bs)
  }

  /** `FormatDevice` with the intended freemap and bitmap sizing. */
  function FormatDeviceIntended(cfg: Config, dev: Device, bs: nat): (r: Run)
    requires cfg.Valid() && dev.Valid()
    ensures |r.writes| <= 3
  {
    if bs == 0 then Run(DivisionByZero, [])
    else
      var blocks := BlockCount(dev.byteCount, bs);
      if blocks == 0 then Run(Returned(0), [])
      else
        var (status, sb) := CreateSuperblock(cfg, ZeroedSuperBlock(cfg), bs, blocks);
        if status != 0 then Run(Returned(status), [])
        else WriteSequence(sb,
                           BuildFreemapIntended(cfg, blocks, bs, dev.freemapAllocates),
                           CreateZeroBitmapIntended(blocks, dev.inodemapAllocates),
                           dev)
  }

  /**
   On a device holding at least one block, the run is the write sequence of
   the filled superblock, the freemap and the inode map: `create_superblock`
   always reports 0, so its check at line 199 never ends the run, and every
   exit of the run is the one `WriteSequenceFirstError` names.
   */
  lemma FormatDeviceRunsWriteSequence(cfg: Config, dev: Device, bs: nat)
    requires cfg.Valid() && dev.Valid() && 0 < bs && 0 < BlockCount(dev.byteCount, bs)
    ensures var blocks := BlockCount(dev.byteCount, bs);
      var sb := ZeroedSuperBlock(cfg).(version := cfg.version, magic := cfg.magic, blockSize := bs, blockCount := blocks);
      FormatDevice(cfg, dev, bs) ==
        WriteSequence(sb, BuildFreemap(cfg, blocks, bs, dev.freemapAllocates),
                      BuildInodemap(blocks, dev.inodemapAllocates), dev)
  {
    var blocks := BlockCount(dev.byteCount, bs);
    var (status, sb) := CreateSuperblock(cfg, ZeroedSuperBlock(cfg), bs, blocks);
    assert status == 0;
    assert sb == ZeroedSuperBlock(cfg).(version := cfg.version, magic := cfg.magic, blockSize := bs, blockCount := blocks);
  }

  /**
   A bad explicit block size ends the run with -EINVAL before anything is
   written, and that is the only way to end with -EINVAL and no writes.
   */
  lemma MkfsRejectsBlockSize(cfg: Config, dev: Device, requested: nat)
    requires cfg.Valid() && dev.Valid() && requested < U32
    ensures var r := Mkfs(cfg, dev, requested);
      (r.exit == Returned(-EINVAL) && r.writes == []) <==>
        (requested != 0 && (Sector(dev) > requested || Sector(dev) % requested != 0))
  {
  }

  /**
   Whenever mkfs writes anything, the superblock's block size is the sector
   size, whether it was defaulted or given explicitly, as long as the sector
   size is positive.
   */
  lemma MkfsBlockSizeIsSectorSize(cfg: Config, dev: Device, requested: nat)
    requires cfg.Valid() && dev.Valid() && requested < U32
    requires 0 < Sector(dev)
    ensures var r := Mkfs(cfg, dev, requested);
      |r.writes| > 0 ==> r.writes[0].SuperBlockBuffer? && r.writes[0].sb.blockSize == Sector(dev)
  {
    if requested != 0 {
      ChooseBlockSizeForcesSectorSize(Sector(dev), requested);
    }
  }

  /** A zero default block size divides by zero; nothing else does. */
  lemma MkfsDividesByZero(cfg: Config, dev: Device, requested: nat)
    requires cfg.Valid() && dev.Valid() && requested < U32
    ensures Mkfs(cfg, dev, requested).exit == DivisionByZero <==> requested == 0 && Sector(dev) == 0
  {
  }

  /** A device smaller than one block: nothing is written and the run returns 0, not an error. */
  lemma FormatDeviceNoSpace(cfg: Config, dev: Device, bs: nat)
    requires cfg.Valid() && dev.Valid() && 0 < bs
    ensures FormatDevice(cfg, dev, bs) == Run(Returned(0), []) <==> dev.byteCount < bs
  {
  }

  /**
   Write order and placement: the buffers go superblock, freemap, inode map,
   a prefix of that order; they land at byte offsets 0, SB and SB + words * W,
   and each bitmap is `BITS_TO_LONGS(blocks) * W` bytes long.
   */
  lemma FormatDeviceWriteOrder(cfg: Config, dev: Device, bs: nat)
    requires cfg.Valid() && dev.Valid() && 0 < bs
    ensures var r := FormatDevice(cfg, dev, bs);
      var words := BitsToLongs(BlockCount(dev.byteCount, bs));
      && (|r.writes| > 0 ==> r.writes[0].SuperBlockBuffer? && Offset(cfg, r.writes, 0) == 0)
      && (|r.writes| > 1 ==>
            r.writes[1].FreemapBuffer? && Offset(cfg, r.writes, 1) == cfg.sbSize
            && ByteLength(cfg, r.writes[1]) == words * WordBytes)
      && (|r.writes| > 2 ==>
            r.writes[2].InodemapBuffer? && Offset(cfg, r.writes, 2) == cfg.sbSize + words * WordBytes
            && ByteLength(cfg, r.writes[2]) == words * WordBytes)
  {
  }

  /**
   A run succeeds with something written exactly when the device holds a
   block, both allocations succeed, the freemap layout is safe, and all three
   writes report 0. The buffers of such a run are then the superblock with
   version, magic, block size and block count and every other byte zero, the
   freemap with bit j of word k set exactly for j < used_blocks with j / 8 == k,
   and an all-zero inode map. Together they span exactly `used_bytes` bytes.
   */
  lemma FormatDeviceSuccess(cfg: Config, dev: Device, bs: nat)
    requires cfg.Valid() && dev.Valid() && 0 < bs
    ensures var r := FormatDevice(cfg, dev, bs);
      var blocks := BlockCount(dev.byteCount, bs);
      (r.exit == Returned(0) && |r.writes| > 0) <==>
        (0 < blocks && dev.freemapAllocates && dev.inodemapAllocates && FreemapSafe(cfg, blocks, bs)
         && dev.superblockWrite == 0 && dev.freemapWrite == 0 && dev.inodemapWrite == 0)
    ensures var r := FormatDevice(cfg, dev, bs);
      var blocks := BlockCount(dev.byteCount, bs);
      var words := BitsToLongs(blocks);
      r.exit == Returned(0) && |r.writes| > 0 ==>
      && |r.writes| == 3
      && r.writes[0].SuperBlockBuffer?
      && r.writes[0].sb.version == cfg.version && r.writes[0].sb.magic == cfg.magic
      && r.writes[0].sb.blockSize == bs && r.writes[0].sb.blockCount == blocks
      && OthersZero(r.writes[0].sb) && |r.writes[0].sb.others| == cfg.sbOtherBytes
      && r.writes[1].FreemapBuffer? && |r.writes[1].words| == words
      && (forall k, j | 0 <= k < words && 0 <= j < |r.writes[1].words[k]| ::
            r.writes[1].words[k][j] == (j < UsedBlocks(cfg, blocks, bs) && j / WordBytes == k))
      && r.writes[2].InodemapBuffer? && |r.writes[2].words| == words
      && AllClear(r.writes[2].words)
      && Offset(cfg, r.writes, 3) == MetadataBytes(cfg, words)
  {
    var blocks := BlockCount(dev.byteCount, bs);
    if 0 < blocks {
      var sb := CreateSuperblock(cfg, ZeroedSuperBlock(cfg), bs, blocks).1;
      var fm := BuildFreemap(cfg, blocks, bs, dev.freemapAllocates);
      var im := BuildInodemap(blocks, dev.inodemapAllocates);
      assert FormatDevice(cfg, dev, bs) == WriteSequence(sb, fm, im, dev);
      var r := WriteSequence(sb, fm, im, dev);
      if r.exit == Returned(0) {
        WriteSequenceSuccess(sb, fm, im, dev);
        OffsetOfThree(cfg, r.writes);
        assert MetadataBytes(cfg, |fm.words|) == cfg.sbSize + |fm.words| * WordBytes + |im.value| * WordBytes;
      }
    }
  }

  /**
   The freemap loop reaches undefined behaviour exactly when the superblock
   write succeeded, the freemap allocation succeeded, and the layout fails
   `FreemapSafe`.
   */
  lemma FormatDeviceUndefined(cfg: Config, dev: Device, bs: nat)
    requires cfg.Valid() && dev.Valid() && 0 < bs
    ensures var blocks := BlockCount(dev.byteCount, bs);
      FormatDevice(cfg, dev, bs).exit == SetBitUndefinedBehaviour <==>
        (0 < blocks && dev.superblockWrite == 0 && dev.freemapAllocates && !FreemapSafe(cfg, blocks, bs))
  {
  }

  /**
   With the corrections, a run succeeds with something written exactly when
   the device holds a block, both allocations succeed, the reservation fits
   the freemap, and all three writes report 0. Such a run reserves every block
   the metadata touches and no other: the freemap covers all blocks, its
   logical bit i is set exactly for i < ReservedBlocks, and those blocks hold
   every byte written.
   */
  lemma FormatDeviceIntendedReservesMetadata(cfg: Config, dev: Device, bs: nat)
    requires cfg.Valid() && dev.Valid() && 0 < bs
    ensures var r := FormatDeviceIntended(cfg, dev, bs);
      var blocks := BlockCount(dev.byteCount, bs);
      (r.exit == Returned(0) && |r.writes| > 0) <==>
        (0 < blocks && dev.freemapAllocates && dev.inodemapAllocates
         && ReservedBlocks(cfg, blocks, bs) <= WordsNeeded(blocks) * WordBits
         && dev.superblockWrite == 0 && dev.freemapWrite == 0 && dev.inodemapWrite == 0)
    ensures var r := FormatDeviceIntended(cfg, dev, bs);
      var blocks := BlockCount(dev.byteCount, bs);
      var reserved := ReservedBlocks(cfg, blocks, bs);
      r.exit == Returned(0) && |r.writes| > 0 ==>
      && |r.writes| == 3
      && r.writes[1].FreemapBuffer?
      && |r.writes[1].words| * WordBits >= blocks
      && WellFormed(r.writes[1].words)
      && (forall i | 0 <= i < |r.writes[1].words| * WordBits ::
            BitAt(r.writes[1].words, i) == (i < reserved))
      && Offset(cfg, r.writes, 3) <= reserved * bs
  {
    var blocks := BlockCount(dev.byteCount, bs);
    if 0 < blocks {
      var sb := CreateSuperblock(cfg, ZeroedSuperBlock(cfg), bs, blocks).1;
      var fm := BuildFreemapIntended(cfg, blocks, bs, dev.freemapAllocates);
      var im := CreateZeroBitmapIntended(blocks, dev.inodemapAllocates);
      assert FormatDeviceIntended(cfg, dev, bs) == WriteSequence(sb, fm, im, dev);
      var r := WriteSequence(sb, fm, im, dev);
      if r.exit == Returned(0) {
        WriteSequenceSuccess(sb, fm, im, dev);
        OffsetOfThree(cfg, r.writes);
        assert Offset(cfg, r.writes, 3) == MetadataBytes(cfg, WordsNeeded(blocks));
      }
    }
  }

  /**
   The block-size finding over a whole run: on a device with a positive
   sector size, a request that is a larger multiple of the sector size and
   fits at least once on the device is refused by mkfs as written with
   -EINVAL before anything is written, while the corrected mkfs accepts it
   and writes a superblock recording that block size and the device's
   whole-block count.
   */
  lemma MkfsIntendedAcceptsMultipleBlockSize(cfg: Config, dev: Device, requested: nat)
    requires cfg.Valid() && dev.Valid() && requested < U32
    requires 0 < Sector(dev) < requested && requested % Sector(dev) == 0
    requires requested <= dev.byteCount
    ensures Mkfs(cfg, dev, requested) == Run(Returned(-EINVAL), [])
    ensures var r := MkfsIntended(cfg, dev, requested);
      && |r.writes| > 0 && r.writes[0].SuperBlockBuffer?
      && r.writes[0].sb.blockSize == requested
      && r.writes[0].sb.blockCount == BlockCount(dev.byteCount, requested)
  {
    ChooseBlockSizeForcesSectorSize(Sector(dev), requested);
    assert MkfsIntended(cfg, dev, requested) == FormatDeviceIntended(cfg, dev, requested);
  }

  /**
   The block-size finding on a concrete device: 512-byte sectors, 1 MiB,
   with a 1024-byte block size requested. mkfs as written refuses it; the
   corrected mkfs writes a superblock with 1024-byte blocks and 1024 blocks.
   */
  lemma MkfsRejectsDoubleSectorBlockSize(cfg: Config, dev: Device)
    requires cfg.Valid() && dev.Valid()
    requires dev.sectorSizeResult == 512 && dev.byteCount == 1048576
    ensures Mkfs(cfg, dev, 1024) == Run(Returned(-EINVAL), [])
    ensures var r := MkfsIntended(cfg, dev, 1024);
      && |r.writes| > 0 && r.writes[0].SuperBlockBuffer?
      && r.writes[0].sb.blockSize == 1024 && r.writes[0].sb.blockCount == 1024
  {
    MkfsIntendedAcceptsMultipleBlockSize(cfg, dev, 1024);
    assert BlockCount(dev.byteCount, 1024) == 1024;
  }
}

=== FILE: size_arith.dfy ===
/**
 The size arithmetic of mkfs.mfs: the platform and header constants the
 tool depends on, `DIV_ROUND_UP`, and `BITS_TO_LONGS`, which gives the
 length in machine words of a bitmap of a given number of bits.

 The platform is LP64: `unsigned long` and `size_t` are 64 bits wide.
 */
module SizeArith {

  const BitsPerByte: nat := 8
  /** `sizeof(unsigned long)` on LP64. */
  const WordBytes: nat := 8
  /** `BITS_PER_BYTE * sizeof(long)`. */
  const WordBits: nat := BitsPerByte * WordBytes
  /** 2^32 and 2^64: the ranges of `uint32_t`/`unsigned int` and of `uint64_t`/`size_t`. */
  const U32: nat := 0x1_0000_0000
  const U64: nat := 0x1_0000_0000_0000_0000

  /**
   The values mkfs.mfs.c takes from headers outside this model:
   `sizeof(union mfs_padded_super_block)`, the number of bytes of that union
   outside the four fields mkfs sets, `MFS_VERSION` and `MFS_MAGIC_NUMBER`.
   */
  datatype Config = Config(
    sbSize: nat,
    sbOtherBytes: nat,
    version: nat,
    magic: nat)
  {
    /** The superblock union is a small structure. */
    predicate Valid() {
      sbSize < U32 && sbOtherBytes <= sbSize
    }
  }

  /** `DIV_ROUND_UP` on unbounded integers: the least k with k * d >= n. */
  function DivRoundUp(n: nat, d: nat): (k: nat)
    requires 0 < d
    ensures k * d >= n
    ensures n > 0 ==> (k - 1) * d < n
    ensures n == 0 ==> k == 0
  {
    (n + d - 1) / d
  }

  /** Reduction modulo 2^64, as unsigned 64-bit arithmetic does. */
  function WrapU64(x: nat): (r: nat)
    ensures r < U64
    ensures x < U64 ==> r == x
  {
    x % U64
  }

  /**
   `BITS_TO_LONGS(n)` as compiled: `DIV_ROUND_UP(n, 64)` on `uint64_t`, where
   the addition `n + 63` wraps modulo 2^64 before the division.
   */
  function BitsToLongs(n: nat): (words: nat)
    requires n < U64
    ensures words * WordBits < U64
  {
    WrapU64(n + WordBits - 1) / WordBits
  }

  /** The bitmap length the macro is meant to compute, without the wrap. */
  function WordsNeeded(n: nat): (words: nat)
    ensures words * WordBits >= n
    ensures n > 0 ==> (words - 1) * WordBits < n
    ensures n == 0 ==> words == 0
  {
    DivRoundUp(n, WordBits)
  }

  /** Away from the top of the 64-bit range the macro computes the least covering word count. */
  lemma BitsToLongsLeastCover(n: nat)
    requires n + WordBits - 1 < U64
    ensures BitsToLongs(n) == WordsNeeded(n)
    ensures BitsToLongs(n) * WordBits >= n
    ensures n > 0 ==> (BitsToLongs(n) - 1) * WordBits < n
  {
  }

  /**
   The wrap is reachable: for the largest 64-bit bit count the macro returns
   no words at all, so the bitmap covers none of the bits.
   */
  lemma BitsToLongsWrapsAtTop()
    ensures BitsToLongs(U64 - 1) == 0
    ensures WordsNeeded(U64 - 1) == U64 / WordBits
  {
    assert WrapU64(U64 - 1 + WordBits - 1) == 62;
  }

  /** Integer division rounding down: the quotient brackets its dividend. */
  function FloorDiv(x: nat, d: nat): (q: nat)
    requires 0 < d
    ensures q * d <= x < (q + 1) * d
    ensures q <= x
    ensures q == 0 <==> x < d
  {
    FloorBounds(x, d);
    FloorPositive(x, d);
    x / d
  }

  /** The floor quotient brackets its dividend. */
  lemma FloorBounds(x: nat, d: nat)
    requires 0 < d
    ensures (x / d) * d <= x < (x / d + 1) * d
  {
    var q := x / d;
    assert x == q * d + x % d;
    assert (q + 1) * d == q * d + d;
  }

  /** The quotient is at most the dividend, and zero exactly below the divisor. */
  lemma FloorPositive(x: nat, d: nat)
    requires 0 < d
    ensures x / d <= x
    ensures x / d == 0 <==> x < d
  {
    var q := x / d;
    FloorBounds(x, d);
    MulMonotone(1, d, q);
    assert q <= q * d <= x;
    if q > 0 {
      MulMonotone(1, q, d);
      assert d <= q * d;
    } else {
      assert (q + 1) * d == d;
    }
  }

  /** Multiplication by a natural number preserves order. */
  lemma {:induction false} MulMonotone(a: nat, b: nat, d: nat)
    requires a <= b
    ensures a * d <= b * d
  {
    if d > 0 {
      MulMonotone(a, b, d - 1);
      assert a * d == a * (d - 1) + a;
      assert b * d == b * (d - 1) + b;
    }
  }

  /** Quotient and remainder are determined: `k * d + j` with `j < d` divides as (k, j). */
  lemma DivModUnique(i: nat, d: nat, k: nat, j: nat)
    requires 0 < d && j < d && i == k * d + j
    ensures i / d == k && i % d == j
  {
    var q, r := i / d, i % d;
    assert i == q * d + r;
    if q < k {
      MulMonotone(q + 1, k, d);
    } else if q > k {
      MulMonotone(k + 1, q, d);
    }
  }
}

=== FILE: superblock.dfy ===
/**
 The superblock mkfs.mfs writes first. Its C layout comes from a header
 outside this model, so it is kept abstract: the four fields mkfs sets,
 and every other byte of `union mfs_padded_super_block` in `others`.
 */
module SuperBlock {
  import opened SizeArith

  datatype SuperBlock = SuperBlock(
    version: nat,
    magic: nat,
    blockSize: nat,
    blockCount: nat,
    others: seq<nat>)

  /** Every byte outside the four named fields is zero. */
  predicate OthersZero(sb: SuperBlock) {
    forall i | 0 <= i < |sb.others| :: sb.others[i] == 0
  }

  /** The union after `memset(&sb, 0, sizeof(union mfs_padded_super_block))`. */
  function ZeroedSuperBlock(cfg: Config): (sb: SuperBlock)
    ensures sb.version == 0 && sb.magic == 0 && sb.blockSize == 0 && sb.blockCount == 0
    ensures |sb.others| == cfg.sbOtherBytes && OthersZero(sb)
  {
    SuperBlock(0, 0, 0, 0, seq(cfg.sbOtherBytes, _ => 0))
  }

  /**
   `create_superblock`: sets version, magic, block size and block count,
   touches nothing else, and reports status 0 whatever its inputs.
   */
  function CreateSuperblock(cfg: Config, sb: SuperBlock, blockSize: nat, blocks: nat): (r: (int, SuperBlock))
    ensures r.0 == 0
    ensures r.1.version == cfg.version && r.1.magic == cfg.magic
    ensures r.1.blockSize == blockSize && r.1.blockCount == blocks
    ensures r.1.others == sb.others
  {
    (0, sb.(version := cfg.version, magic := cfg.magic, blockSize := blockSize, blockCount := blocks))
  }

  /**
   The result of `create_superblock` depends only on its arguments, not on
   the four fields it overwrites: two superblocks that agree outside those
   fields are filled identically.
   */
  lemma CreateSuperblockOverwritesNamedFields(cfg: Config, a: SuperBlock, b: SuperBlock, blockSize: nat, blocks: nat)
    requires a.others == b.others
    ensures CreateSuperblock(cfg, a, blockSize, blocks) == CreateSuperblock(cfg, b, blockSize, blocks)
  {
  }

  /** On the zeroed union every byte outside the four named fields stays zero. */
  lemma CreateSuperblockOnZeroed(cfg: Config, blockSize: nat, blocks: nat)
    ensures var sb := CreateSuperblock(cfg, ZeroedSuperBlock(cfg), blockSize, blocks).1;
      OthersZero(sb) && |sb.others| == cfg.sbOtherBytes
  {
  }
}

=== FILE: wrappers.dfy ===
/** The optional value the model uses for a `calloc` result that may be NULL. */
module Wrappers {
  datatype Option<T> = None | Some(value: T)
}
